=== FILE: README.md ===
# TrimView in Dafny

A model of the interaction logic of `TrimView`, an Android widget that shows
a horizontal track with a left and a right anchor bounding a trim window, a
main line between them and a green progress line. With the `View` shell
taken away, the widget is a record of five rectangles (`bgLine`, `mainLine`,
`progressLine`, `leftAnchor`, `rightAnchor`), the logical fields `max`,
`progress`, `trim` and `minTrim`, a capture mode (`Captured`: `LEFT`,
`RIGHT`, `WHOLE`) and three gesture baselines (`initx`, `initrx`,
`initlx`). Every transition is a pure function of that record and one input:

- the `progress` setter, which throws when the value exceeds `max` and
  otherwise moves the right end of the progress line;
- the `trim` setter, which moves the main line's right end and the right
  anchor's left edge;
- the geometry part of `onMeasure`, which derives all five rectangles from
  `trim`, `progress`, `max` and the measured width;
- `onTouchEvent`: ACTION_DOWN hit-tests the right anchor, then the left
  anchor, else captures the whole window, and records the baselines;
  ACTION_MOVE drags the captured part by the pointer's offset, but only
  when the move's guard holds: a move whose guard fails is ignored; every
  other action is ignored; every event is reported as consumed.

Files:

- `numerics.dfy` (`Numerics`): Kotlin `Int` as a 32-bit subset type, the
  wrapping `Int` product, and the `Float` comparison `n / d >= m` including
  a zero divisor.
- `rects.dfy` (`Rects`): `RectF` and its half-open `contains` test.
- `trim_view.dfy` (`TrimView`): the view record and its operations.
- `trim_view_proofs.dfy` (`TrimViewProofs`): invariants and gesture-level
  properties.

Modelling choices:

- Pixel coordinates are `real`; Kotlin `Float` rounding is deliberately
  ignored. The `Int * Int` products in the progress line's end (`trim *
  progress`) are wrapped to 32 bits explicitly.
- The drag guards divide by `measuredWidth - 2 * anchorWidth`. Instead of
  forbidding a zero divisor, the model follows IEEE behaviour: a positive
  numerator gives +infinity (the guard holds), a negative one -infinity and
  a zero one NaN (the guard fails). So a move is defined on every view.
- `onMeasure` records the height `anchorWidth.toInt()`; since
  `anchorWidth` is `dpToPx(24)` converted to `Float`, the recorded height is
  the anchor size itself, and the geometry is set only when it and the width
  are positive.
- `invalidate()` appears only as the `invalidated` flag of a touch step,
  where it marks an accepted move.
- Vertical rectangle coordinates are carried because `RectF.contains` reads
  them; `onMeasure` sets them, nothing else touches them.
- The sample activity `MainActivity.kt` sets `maxTrim` and
  `onTrimChangeListener` on the view, and its listener callbacks take a
  `trimStart`. `TrimView.kt` declares none of these: drags move pixel
  geometry only and never write `trim` or `progress`. The model follows
  `TrimView.kt`.

## Model

| member | source | states |
|---|---|---|
| `Numerics.Times` | trimview/src/main/java/com/hmomeni/trimview/TrimView.kt:61 | Kotlin `Int` multiplication: the exact product when it fits in 32 bits, and always a value congruent to it modulo 2^32 |
| `TrimView.Initial` | trimview/src/main/java/com/hmomeni/trimview/TrimView.kt:44-72 | A new view is unmeasured, with `max` 100, `trim` 33 (`max / 3`), `minTrim` 0, `progress` 0, WHOLE captured and zero baselines; because every rectangle starts empty no anchor can be hit, so the first touch-down always captures the whole window |
| `TrimView.SetProgress` | trimview/src/main/java/com/hmomeni/trimview/TrimView.kt:55-63 | Fails with an error carrying `max` exactly when the value exceeds `max` (state untouched); otherwise `progress` becomes the value, the progress line ends at `anchorWidth` plus a hundredth (the literal 100, not `max`) of the `Int` product `trim*value` as it wraps, which is the exact product whenever it fits an `Int`, and no other field or edge changes |
| `TrimView.SetTrim` | trimview/src/main/java/com/hmomeni/trimview/TrimView.kt:65-71 | `trim` becomes the value, the main line ends at `trim*measuredWidth/max`, the right anchor's left edge lies one anchor width past that; the right anchor's right edge, the progress line and every other field are unchanged |
| `TrimView.Measure` | trimview/src/main/java/com/hmomeni/trimview/TrimView.kt:74-104 | Records the width and the anchor-sized height; only when both are positive are the rectangles reset: background line over `[anchorWidth, width - anchorWidth]`, left anchor the square `[0, anchorWidth]`, main line from `anchorWidth` to `trim*(width - anchorWidth)/max`, right anchor one anchor width from there, the three lines in one band centred vertically of height `2*(mainLineHeight/2)`; logical and gesture fields never change |
| `TrimView.TouchDown` | trimview/src/main/java/com/hmomeni/trimview/TrimView.kt:123-140 | `initx` becomes the touch x; RIGHT is captured whenever the right anchor contains the point (even if the left one does too), else LEFT if the left anchor does, else WHOLE; each mode records the left edge of the anchor(s) it moves and keeps the other baseline; no rectangle or setting changes |
| `TrimView.DragLeft` | trimview/src/main/java/com/hmomeni/trimview/TrimView.kt:144-155 | With `newx = initlx + dx`, accepted iff `max*(rightAnchor.left - newx - anchorWidth)/(measuredWidth - 2*anchorWidth) >= minTrim` and `newx >= 0`; on acceptance the left anchor spans `[newx, newx + anchorWidth]`, the main line starts at its right edge, and the right anchor and the main line's right end are unchanged; on rejection nothing changes |
| `TrimView.DragRight` | trimview/src/main/java/com/hmomeni/trimview/TrimView.kt:156-167 | With `newx = initrx + dx`, accepted iff `max*(newx - leftAnchor.right)/(measuredWidth - 2*anchorWidth) >= minTrim` and `newx + anchorWidth <= measuredWidth`; on acceptance the right anchor spans `[newx, newx + anchorWidth]` within the width, the main line ends at its left edge, and the left anchor and the main line's left end are unchanged; on rejection nothing changes |
| `TrimView.DragWhole` | trimview/src/main/java/com/hmomeni/trimview/TrimView.kt:168-179 | Accepted iff both shifted baselines keep the left anchor at or right of 0 and the right anchor within the width; on acceptance both anchors shift by the same `dx`, so their distance is `initrx - initlx`, both stay within `[0, measuredWidth]`, and the main line spans the gap; on rejection nothing changes |
| `TrimView.TouchMove` | trimview/src/main/java/com/hmomeni/trimview/TrimView.kt:141-181 | The offset from `initx` drives the captured mode's drag; no move, accepted or rejected, changes `max`, `trim`, `progress`, `minTrim`, the measured size, the capture mode or the baselines, and a rejected move changes nothing at all |
| `TrimView.OnTouchEvent` | trimview/src/main/java/com/hmomeni/trimview/TrimView.kt:121-185 | Always reports the event consumed; DOWN is a touch-down without redraw, MOVE a touch-move, and every other action (UP, CANCEL, ...) leaves the view unchanged |
| `TrimViewProofs.Run` | trimview/src/main/java/com/hmomeni/trimview/TrimView.kt:121-185 | Any sequence of touch events leaves the logical values, constants and measured size as they were: drags write pixels only |
| `TrimViewProofs.MeasureIsCoherent` | trimview/src/main/java/com/hmomeni/trimview/TrimView.kt:84-102 | A layout pass that sets the geometry leaves each anchor one anchor width wide and hugging the main line, the left anchor at 0, and, when `0 <= trim <= max` and the width fits an anchor, the right anchor within the width |
| `TrimViewProofs.MeasureWideEnoughIff` | trimview/src/main/java/com/hmomeni/trimview/TrimView.kt:84-89 | After a layout pass (track positive, `max > 0`) the main line is at least `minTrim` in the drag guards' units exactly when `trim*(width - anchorWidth) - max*anchorWidth >= minTrim*(width - 2*anchorWidth)`: layout and guards use different scales |
| `TrimViewProofs.InitialLayoutMeetsInv` | trimview/src/main/java/com/hmomeni/trimview/TrimView.kt:53-103 | The defaults (`max` 100, `trim` 33, `minTrim` 0) laid out at a width of at least 133/33 anchor widths meet the full invariant |
| `TrimViewProofs.InitialGesturesKeepInv` | trimview/src/main/java/com/hmomeni/trimview/TrimView.kt:74-185 | Every view reached from such a freshly laid-out default view by a touch-down and then any touch events meets the gesture invariant |
| `TrimViewProofs.LayoutScaleMismatch` | trimview/src/main/java/com/hmomeni/trimview/TrimView.kt:84-89 | The defaults with `minTrim` 33, 50-pixel anchors, width 1000: the laid-out view is coherent and in bounds, yet its main line is below `minTrim` in the guards' units; a right-anchor gesture down at x 320 accepts a move exactly when x lies in `[353.5, 956.5]`, so every shorter move, the return to the down point included, is ignored (and the left anchor, at the origin, accepts no move) |
| `TrimView.MeasureIntended` | trimview/src/main/java/com/hmomeni/trimview/TrimView.kt:84-102 | The layout with the main line ending at `anchorWidth + trim*(width - 2*anchorWidth)/max` and the right anchor hugging it; every other field as the as-written layout sets it |
| `TrimViewProofs.IntendedRightAnchorMoves` | trimview/src/main/java/com/hmomeni/trimview/TrimView.kt:156-167 | The same view under the intended layout meets the invariant, and a right-anchor gesture down at x 350 accepts a move exactly when x lies in `[350, 953]`: no dead zone |
| `TrimViewProofs.MeasureIntendedMatchesGuards` | trimview/src/main/java/com/hmomeni/trimview/TrimView.kt:144-166 | With the intended layout the main line spans exactly `trim` in the guards' units: the view is coherent, wide enough iff `trim >= minTrim` and in bounds iff `trim <= max` |
| `TrimViewProofs.IntendedGesturesKeepInv` | trimview/src/main/java/com/hmomeni/trimview/TrimView.kt:121-185 | With the intended layout and `minTrim <= trim <= max`, every view reached by a touch-down and any touch events meets the gesture invariant |
| `TrimViewProofs.MeasureIdempotent` | trimview/src/main/java/com/hmomeni/trimview/TrimView.kt:77-103 | Laying out twice at one width equals laying out once: geometry is a function of the logical state and the width |
| `TrimViewProofs.SetTrimLastWriteWins` | trimview/src/main/java/com/hmomeni/trimview/TrimView.kt:66-70 | Setting `trim` to `a` then `b` equals setting it to `b` |
| `TrimViewProofs.SetTrimDetachesRightAnchor` | trimview/src/main/java/com/hmomeni/trimview/TrimView.kt:68-69 | After the `trim` setter (positive anchor size) the right anchor's left edge lies one anchor width past the main line's end, so it is detached and the view is not coherent |
| `TrimViewProofs.TouchReattachesRightAnchor` | trimview/src/main/java/com/hmomeni/trimview/TrimView.kt:121-185 | On a view with a detached right anchor, a touch event re-attaches it exactly when it is an accepted move with RIGHT or WHOLE captured; a touch-down, a LEFT move, an ignored move or any other action leaves it detached (a layout pass re-attaches it too, by `MeasureIsCoherent`) |
| `TrimViewProofs.SetProgressKeepsDetached` | trimview/src/main/java/com/hmomeni/trimview/TrimView.kt:56-62 | An accepted `progress` write leaves a detached right anchor detached |
| `TrimViewProofs.SetTrimCanHideRightAnchor` | trimview/src/main/java/com/hmomeni/trimview/TrimView.kt:66-70 | When the new left edge of the right anchor reaches its stale right edge, no touch-down can capture the right anchor any more |
| `TrimViewProofs.SetProgressPreservesGestureInv` | trimview/src/main/java/com/hmomeni/trimview/TrimView.kt:56-62 | An accepted `progress` write moves only the progress line, so it keeps the gesture invariant |
| `TrimViewProofs.LeftDragKeepsRightAnchorDetached` | trimview/src/main/java/com/hmomeni/trimview/TrimView.kt:150-152 | A left move never changes the right anchor or the main line's right end, so a right anchor detached from the main line stays detached |
| `TrimViewProofs.SetProgressIdempotent` | trimview/src/main/java/com/hmomeni/trimview/TrimView.kt:56-62 | Setting the same accepted progress twice equals setting it once |
| `TrimViewProofs.ProgressProductWraps` | trimview/src/main/java/com/hmomeni/trimview/TrimView.kt:61 | With `trim` and `progress` 50000 (and `max` at least that) the `Int` product wraps negative and the progress line ends left of its start |
| `TrimViewProofs.DragLeftPreservesGestureInv` | trimview/src/main/java/com/hmomeni/trimview/TrimView.kt:144-155 | A left drag keeps anchors coherent, in bounds and the main line at least `minTrim` long in logical units |
| `TrimViewProofs.DragRightPreservesGestureInv` | trimview/src/main/java/com/hmomeni/trimview/TrimView.kt:156-167 | A right drag keeps the same invariant |
| `TrimViewProofs.DragWholePreservesGestureInv` | trimview/src/main/java/com/hmomeni/trimview/TrimView.kt:168-179 | A whole-window drag keeps the invariant, preserving the main line's length when the baselines match the anchors |
| `TrimViewProofs.TouchPreservesGestureInv` | trimview/src/main/java/com/hmomeni/trimview/TrimView.kt:121-185 | Any single touch event keeps the gesture invariant |
| `TrimViewProofs.DownEstablishesGestureInv` | trimview/src/main/java/com/hmomeni/trimview/TrimView.kt:123-139 | A touch-down on a coherent, in-bounds, wide-enough view starts a gesture whose whole-window baselines match the anchors |
| `TrimViewProofs.RunPreservesGestureInv` | trimview/src/main/java/com/hmomeni/trimview/TrimView.kt:121-185 | Invariant closure over any event sequence: anchors stay coherent and within `[0, measuredWidth]`, and the window stays at least `minTrim` |
| `TrimViewProofs.MoveBeforeAnyDown` | trimview/src/main/java/com/hmomeni/trimview/TrimView.kt:116-120 | A move before any touch-down runs in the default WHOLE mode from zero baselines: accepted iff `0 <= x` and `x + anchorWidth <= width`, and then both anchors start at `x`, inverting the main line |
| `TrimViewProofs.MoveKeepsGestureFrame` | trimview/src/main/java/com/hmomeni/trimview/TrimView.kt:141-181 | A move keeps everything but the captured part's horizontal edges as at touch-down |
| `TrimViewProofs.MovesKeepGestureFrame` | trimview/src/main/java/com/hmomeni/trimview/TrimView.kt:141-181 | The same for any sequence of moves |
| `TrimViewProofs.ReturnLeft` | trimview/src/main/java/com/hmomeni/trimview/TrimView.kt:144-155 | In a left gesture, the move back to the down point is accepted and restores the starting geometry |
| `TrimViewProofs.ReturnRight` | trimview/src/main/java/com/hmomeni/trimview/TrimView.kt:156-167 | The same in a right gesture |
| `TrimViewProofs.ReturnWhole` | trimview/src/main/java/com/hmomeni/trimview/TrimView.kt:168-179 | The same in a whole-window gesture |
| `TrimViewProofs.ReturnToDownPointRestores` | trimview/src/main/java/com/hmomeni/trimview/TrimView.kt:123-181 | From a view where the invariant holds (anchors hugging the main line, within the width, and the main line at least `minTrim` in the guards' units), after any drags moving the pointer back to where it went down is accepted and restores exactly the geometry of the view at touch-down |

## Findings

| source | as written | input that shows it | evidently intended | confidence | as-written member | corrected member |
|---|---|---|---|---|---|---|
| trimview/src/main/java/com/hmomeni/trimview/TrimView.kt:87 | layout ends the main line at `trim*(measuredWidth - anchorWidth)/max`, an absolute x on a different scale from the drag guards' `max*span/(measuredWidth - 2*anchorWidth)` (lines 147, 159) | 50-pixel anchors, `max` 100, `trim` = `minTrim` = 33, width 1000: the laid-out window is about 29.3 units, below `minTrim`, and a right-anchor gesture down at (320, 10) ignores every move short of x 353.5, the move back to the down point included; under the corrected layout, where the right anchor starts at 347, a right-anchor gesture down at (350, 10) accepts every move from x 350 to 953 | the main line ends at `anchorWidth + trim*(measuredWidth - 2*anchorWidth)/max`, so the laid-out window is exactly `trim` in the guards' units | medium; not executed | `TrimViewProofs.LayoutScaleMismatch` | `TrimViewProofs.MeasureIntendedMatchesGuards` |

`TrimView.Measure` stays the model of the code as written; `TrimView.MeasureIntended`
is the corrected layout. The invariant-closure result is proved for both
(`InitialGesturesKeepInv`, `IntendedGesturesKeepInv`), and the dead zone of
`LayoutScaleMismatch` is absent under the corrected layout
(`IntendedRightAnchorMoves`).

## Left out

- `onDraw`, the paints and colours, `radius` and the SDK-version check on `bracketPaint`: rendering only.
- `dpToPx` and `Resources.getSystem()`: a platform call; the anchor size and main-line height are parameters of the view (`anchorPx`, `lineHeightPx`).
- `super.onMeasure`, `setMeasuredDimension`: framework plumbing; the width is an input of `Measure` and the height it records is the anchor size.
- `invalidate()` in the two setters: an unconditional redraw request with no effect on state.
- `RectF.contains`: a library call, modelled as Android's documented half-open test on non-empty rectangles.
- Kotlin `Float` rounding, including the rounding of `Int` to `Float` conversions: coordinates are reals.
- TrimView.SetTrim: requires `max != 0`, because the source's `Float` division by zero yields an infinity or NaN, which reals cannot represent.
- TrimView.Measure: requires `max != 0` when it lays out, for the same reason.
- The two constructors and the `Context`/`AttributeSet` arguments: no logic.
- The multi-pointer and historical parts of `MotionEvent`: only the action kind and the pointer's `x`, `y` are modelled.
- `max` and `minTrim` have no setter logic; a host changes them by updating the record's field.
- app/src/main/java/com/hmomeni/trimviewsample/MainActivity.kt: host activity code with a timer, referring to a listener and a `maxTrim` that `TrimView.kt` does not have.

=== FILE: numerics.dfy ===
/** Kotlin's `Int` and the one corner of `Float` comparison the view relies on. */
module Numerics {

  const MinInt: int := -0x8000_0000
  const MaxInt: int := 0x7fff_ffff
  const IntRange: int := 0x1_0000_0000

  /** Kotlin `Int`: a 32-bit two's-complement integer. */
  type Int32 = x: int | MinInt <= x <= MaxInt

  /** A non-negative `Int`, as Android reports pixel sizes. */
  type Size = x: int | 0 <= x <= MaxInt

  /** Kotlin `Int` multiplication, which wraps around modulo 2^32. */
  function Times(a: Int32, b: Int32): (r: Int32)
    ensures MinInt <= a * b <= MaxInt ==> r == a * b
    ensures (a * b - r) % IntRange == 0
  {
    var p := a * b;
    var q := (p - MinInt) / IntRange;
    assert p - MinInt == q * IntRange + (p - MinInt) % IntRange;
    (p - MinInt) % IntRange + MinInt
  }

  /** The Float comparison `n / d >= m` for finite `n`, `d`, `m`. A zero
      divisor gives an infinity of the sign of `n`, or NaN when `n` is zero
      too, and NaN compares false. */
  predicate QuotientAtLeast(n: real, d: real, m: real) {
    if d != 0.0 then n / d >= m else n > 0.0
  }
}

=== FILE: rects.dfy ===
/** `android.graphics.RectF`, as far as the trim view uses it. */
module Rects {

  datatype Rect = Rect(left: real, top: real, right: real, bottom: real)

  /** A freshly constructed `RectF()`. */
  const Empty: Rect := Rect(0.0, 0.0, 0.0, 0.0)

  /** `RectF.contains(x, y)`: an empty or inverted rectangle contains no
      point; otherwise the left and top edges are inside and the right and
      bottom edges outside. */
  predicate Contains(r: Rect, x: real, y: real) {
    && r.left < r.right && r.top < r.bottom
    && r.left <= x < r.right && r.top <= y < r.bottom
  }

  /** Two rectangles occupy the same vertical band. */
  predicate SameBand(a: Rect, b: Rect) {
    a.top == b.top && a.bottom == b.bottom
  }
}

=== FILE: trim_view.dfy ===
/** The trim view: a horizontal track with a left and a right anchor that
    bound a trim window, and a progress line drawn inside it. The Android
    `View` shell is stripped away; what remains is an immutable record of
    the view's fields and one pure function per setter, layout pass and
    touch action. Pixel coordinates are reals: Kotlin `Float` rounding is
    not modelled. */
module TrimView {
  import opened Numerics
  import opened Rects

  /** Which part of the control the current gesture drags. */
  datatype Captured = Left | Right | Whole

  /** Every field of the view that the logic reads or writes.
      `anchorPx` and `lineHeightPx` are the device-dependent constants
      `dpToPx(24)` and `dpToPx(8)`; `measuredWidth` and `measuredHeight`
      are what the last layout pass recorded. */
  datatype View = View(
    anchorPx: Size, lineHeightPx: Size,
    measuredWidth: Size, measuredHeight: Size,
    bgLine: Rect, mainLine: Rect, progressLine: Rect,
    leftAnchor: Rect, rightAnchor: Rect,
    max: Int32, progress: Int32, trim: Int32, minTrim: Int32,
    captured: Captured, initx: real, initrx: real, initlx: real)
  {
    /** `anchorWidth`, the anchor size as a Float. */
    function AnchorWidth(): real { anchorPx as real }

    function Width(): real { measuredWidth as real }

    /** `measuredWidth - 2 * anchorWidth`, the divisor of the drag guards. */
    function Track(): real { Width() - 2.0 * AnchorWidth() }
  }

  /** The exception the `progress` setter throws. */
  datatype Error = ProgressExceedsMax(max: Int32)

  datatype Result<T> = Ok(value: T) | Err(error: Error)

  /** `MotionEvent.getAction()`, reduced to the cases the view tells apart. */
  datatype Action = ActionDown | ActionMove | ActionUp | ActionCancel | ActionOther

  datatype MotionEvent = MotionEvent(action: Action, x: real, y: real)

  /** A view after one touch step, and whether the step called `invalidate()`. */
  datatype Step = Step(view: View, invalidated: bool)

  /** What `onTouchEvent` leaves behind and what it returns. */
  datatype TouchResult = TouchResult(view: View, invalidated: bool, consumed: bool)

  /** The fields no touch event writes: constants, measured size and the
      logical values. */
  predicate SameSettings(a: View, b: View) {
    && a.anchorPx == b.anchorPx && a.lineHeightPx == b.lineHeightPx
    && a.measuredWidth == b.measuredWidth && a.measuredHeight == b.measuredHeight
    && a.max == b.max && a.progress == b.progress
    && a.trim == b.trim && a.minTrim == b.minTrim
  }

  /** The capture mode and the three gesture baselines. */
  predicate SameGesture(a: View, b: View) {
    && a.captured == b.captured
    && a.initx == b.initx && a.initrx == b.initrx && a.initlx == b.initlx
  }

  /** The five rectangles. */
  predicate SameGeometry(a: View, b: View) {
    && a.bgLine == b.bgLine && a.mainLine == b.mainLine
    && a.progressLine == b.progressLine
    && a.leftAnchor == b.leftAnchor && a.rightAnchor == b.rightAnchor
  }

  /** A newly constructed view: not yet measured, every rectangle empty,
      `max` 100 and `trim` `max / 3`. No anchor can be hit yet, so the
      first gesture always drags the whole window. */
  function Initial(anchorPx: Size, lineHeightPx: Size): (r: View)
    ensures r.measuredWidth == 0 && r.anchorPx == anchorPx
    ensures r.max == 100 && r.trim == 33 && r.minTrim == 0 && r.progress == 0
    ensures r.captured == Whole && r.initx == 0.0 && r.initrx == 0.0 && r.initlx == 0.0
    ensures forall x: real, y: real :: TouchDown(r, x, y).captured == Whole
  {
    View(anchorPx, lineHeightPx, 0, 0,
         Empty, Empty, Empty, Empty, Empty,
         100, 0, 100 / 3, 0,
         Whole, 0.0, 0.0, 0.0)
  }

  /** The right end of the progress line: one anchor width plus a
      hundredth of the product of `trim` and `progress`. The product is
      taken in `Int` and wraps. */
  function ProgressEnd(v: View): real {
    v.AnchorWidth() + Times(v.trim, v.progress) as real / 100.0
  }

  /** The `progress` setter. A value above `max` throws before anything is
      written; any other value, negative ones included, is stored and moves
      the right end of the progress line, scaled by the literal 100 rather
      than by `max`. */
  function SetProgress(s: View, value: Int32): (r: Result<View>)
    ensures r.Err? <==> value > s.max
    ensures r.Err? ==> r.error == ProgressExceedsMax(s.max)
    ensures r.Ok? ==> r.value.progress == value
    ensures r.Ok? ==>
      r.value.progressLine.right == s.AnchorWidth() + Times(s.trim, value) as real / 100.0
    ensures r.Ok? && MinInt <= s.trim * value <= MaxInt ==>
      r.value.progressLine.right == s.AnchorWidth() + (s.trim * value) as real / 100.0
    ensures r.Ok? ==>
      && r.value.progressLine == s.progressLine.(right := r.value.progressLine.right)
      && r.value == s.(progress := value, progressLine := r.value.progressLine)
  {
    if value > s.max then Err(ProgressExceedsMax(s.max))
    else
      var t := s.(progress := value);
      Ok(t.(progressLine := t.progressLine.(right := ProgressEnd(t))))
  }

  /** Where the `trim` setter puts the main line's right end. */
  function TrimRight(s: View, value: Int32): real
    requires s.max != 0
  {
    value as real * s.Width() / s.max as real
  }

  /** The `trim` setter. It moves the right end of the main line to
      `trim * measuredWidth / max` and the left edge of the right anchor one
      anchor width beyond it; the right edge of the right anchor and the
      progress line are left as they were. */
  function SetTrim(s: View, value: Int32): (r: View)
    requires s.max != 0
    ensures r.trim == value
    ensures r.mainLine.right == TrimRight(s, value)
    ensures r.rightAnchor.left == r.mainLine.right + s.AnchorWidth()
    ensures r == s.(trim := value,
                    mainLine := s.mainLine.(right := r.mainLine.right),
                    rightAnchor := s.rightAnchor.(left := r.rightAnchor.left))
  {
    var mainRight := TrimRight(s, value);
    s.(trim := value,
       mainLine := s.mainLine.(right := mainRight),
       rightAnchor := s.rightAnchor.(left := mainRight + s.AnchorWidth()))
  }

  /** Whether a layout pass of the given width (re)sets the geometry: the
      height recorded is always the anchor size, and both must be positive. */
  predicate LaysOut(s: View, width: Size) {
    width > 0 && s.anchorPx > 0
  }

  /** The geometry part of `onMeasure`. The measured size becomes
      `width` by the anchor size. When both are positive every rectangle is
      derived afresh from `trim`, `progress` and `max`: the background line
      spans the track between the anchor-wide margins, the left anchor is an
      anchor-sized square at the origin, the main line runs from it to
      `trim * (measuredWidth - anchorWidth) / max`, where the right anchor
      begins, and the three lines share one horizontal band centred on the
      view. Otherwise the rectangles are left alone. */
  function Measure(s: View, width: Size): (r: View)
    requires LaysOut(s, width) ==> s.max != 0
    ensures r.measuredWidth == width && r.measuredHeight == s.anchorPx
    ensures r == s.(measuredWidth := width, measuredHeight := s.anchorPx,
                    bgLine := r.bgLine, mainLine := r.mainLine, progressLine := r.progressLine,
                    leftAnchor := r.leftAnchor, rightAnchor := r.rightAnchor)
    ensures !LaysOut(s, width) ==> SameGeometry(r, s)
    ensures LaysOut(s, width) ==>
      var aw := s.AnchorWidth();
      && r.bgLine.left == aw && r.bgLine.right == width as real - aw
      && r.mainLine.left == aw
      && r.mainLine.right == s.trim as real * (width as real - aw) / s.max as real
      && r.progressLine.left == aw && r.progressLine.right == ProgressEnd(s)
      && r.leftAnchor == Rect(0.0, 0.0, aw, aw)
      && r.rightAnchor == Rect(r.mainLine.right, 0.0, r.mainLine.right + aw, aw)
      && SameBand(r.mainLine, r.bgLine) && SameBand(r.progressLine, r.bgLine)
      && r.bgLine.top + r.bgLine.bottom == aw
      && r.bgLine.bottom - r.bgLine.top == 2.0 * (s.lineHeightPx / 2) as real
  {
    var h := s.anchorPx;
    var m := s.(measuredWidth := width, measuredHeight := h);
    if LaysOut(s, width) then
      var aw := m.AnchorWidth();
      var mid := h as real / 2.0;
      var half := (m.lineHeightPx / 2) as real;
      var mainRight := m.trim as real * (m.Width() - aw) / m.max as real;
      m.(bgLine := Rect(aw, mid - half, m.Width() - aw, mid + half),
         mainLine := Rect(aw, mid - half, mainRight, mid + half),
         progressLine := Rect(aw, mid - half, ProgressEnd(m), mid + half),
         leftAnchor := Rect(0.0, 0.0, h as real, h as real),
         rightAnchor := Rect(mainRight, 0.0, mainRight + aw, h as real))
    else
      m
  }

  /** Where the corrected layout puts the main line's right end: `trim / max`
      of the track past the left anchor. */
  function IntendedRight(s: View, width: Size): real
    requires s.max != 0
  {
    var aw := s.AnchorWidth();
    aw + s.trim as real * (width as real - 2.0 * aw) / s.max as real
  }

  /** `Measure` with the main line scaled as the drag guards read it: its
      right end, where the right anchor begins, lies `trim / max` of the
      track `measuredWidth - 2 * anchorWidth` past the left anchor. Every
      other field is as `Measure` sets it. */
  function MeasureIntended(s: View, width: Size): (r: View)
    requires LaysOut(s, width) ==> s.max != 0
    ensures !LaysOut(s, width) ==> r == Measure(s, width)
    ensures LaysOut(s, width) ==>
      var aw := s.AnchorWidth();
      var m := Measure(s, width);
      && r.mainLine.right == IntendedRight(s, width)
      && r.rightAnchor.left == r.mainLine.right && r.rightAnchor.right == r.mainLine.right + aw
      && r == m.(mainLine := m.mainLine.(right := r.mainLine.right),
                 rightAnchor := m.rightAnchor.(left := r.rightAnchor.left, right := r.rightAnchor.right))
  {
    var m := Measure(s, width);
    if LaysOut(s, width) then
      var aw := s.AnchorWidth();
      var mainRight := IntendedRight(s, width);
      m.(mainLine := m.mainLine.(right := mainRight),
         rightAnchor := m.rightAnchor.(left := mainRight, right := mainRight + aw))
    else
      m
  }

  /** ACTION_DOWN: records the touch position and picks what to drag, the
      right anchor first, then the left anchor, else the whole window,
      recording the left edge of each anchor the mode will move. Nothing
      else changes. */
  function TouchDown(s: View, x: real, y: real): (r: View)
    ensures r.initx == x
    ensures Contains(s.rightAnchor, x, y) ==>
      r.captured == Right && r.initrx == s.rightAnchor.left && r.initlx == s.initlx
    ensures !Contains(s.rightAnchor, x, y) && Contains(s.leftAnchor, x, y) ==>
      r.captured == Left && r.initlx == s.leftAnchor.left && r.initrx == s.initrx
    ensures !Contains(s.rightAnchor, x, y) && !Contains(s.leftAnchor, x, y) ==>
      r.captured == Whole && r.initrx == s.rightAnchor.left && r.initlx == s.leftAnchor.left
    ensures SameSettings(r, s) && SameGeometry(r, s)
  {
    var t := s.(initx := x);
    if Contains(s.rightAnchor, x, y) then
      t.(initrx := s.rightAnchor.left, captured := Right)
    else if Contains(s.leftAnchor, x, y) then
      t.(initlx := s.leftAnchor.left, captured := Left)
    else
      t.(initrx := s.rightAnchor.left, initlx := s.leftAnchor.left, captured := Whole)
  }

  /** The drag guards' test `max * span / (measuredWidth - 2 * anchorWidth) >= minTrim`:
      a pixel span is at least `minTrim` long in logical units. */
  predicate SpansMinTrim(s: View, span: real) {
    QuotientAtLeast(s.max as real * span, s.Track(), s.minTrim as real)
  }

  /** A move of the left anchor by `dx` from its baseline. It is accepted
      only when the window it leaves, in logical units, is at least
      `minTrim` and the anchor stays right of the origin; then the anchor
      is placed at the new position and the main line starts at its right
      edge, and nothing else moves. A rejected move changes nothing. */
  function DragLeft(s: View, dx: real): (r: Step)
    ensures var newx := s.initlx + dx;
      r.invalidated <==>
        && SpansMinTrim(s, s.rightAnchor.left - newx - s.AnchorWidth())
        && newx >= 0.0
    ensures !r.invalidated ==> r.view == s
    ensures r.invalidated ==>
      && r.view.leftAnchor.left == s.initlx + dx >= 0.0
      && r.view.leftAnchor.right == r.view.leftAnchor.left + s.AnchorWidth()
      && r.view.mainLine.left == r.view.leftAnchor.right
      && r.view == s.(leftAnchor := s.leftAnchor.(left := r.view.leftAnchor.left,
                                                  right := r.view.leftAnchor.right),
                      mainLine := s.mainLine.(left := r.view.mainLine.left))
  {
    var newx := s.initlx + dx;
    var aw := s.AnchorWidth();
    if SpansMinTrim(s, s.rightAnchor.left - newx - aw)
       && newx >= 0.0
    then
      Step(s.(leftAnchor := s.leftAnchor.(left := newx, right := newx + aw),
              mainLine := s.mainLine.(left := newx + aw)), true)
    else
      Step(s, false)
  }

  /** A move of the right anchor by `dx` from its baseline. It is accepted
      only when the window it leaves, in logical units, is at least
      `minTrim` and the anchor stays inside the measured width; then the
      anchor is placed at the new position and the main line ends at its
      left edge, and nothing else moves. A rejected move changes nothing. */
  function DragRight(s: View, dx: real): (r: Step)
    ensures var newx := s.initrx + dx;
      r.invalidated <==>
        && SpansMinTrim(s, newx - s.leftAnchor.right)
        && newx + s.AnchorWidth() <= s.Width()
    ensures !r.invalidated ==> r.view == s
    ensures r.invalidated ==>
      && r.view.rightAnchor.left == s.initrx + dx
      && r.view.rightAnchor.right == r.view.rightAnchor.left + s.AnchorWidth() <= s.Width()
      && r.view.mainLine.right == r.view.rightAnchor.left
      && r.view == s.(rightAnchor := s.rightAnchor.(left := r.view.rightAnchor.left,
                                                    right := r.view.rightAnchor.right),
                      mainLine := s.mainLine.(right := r.view.mainLine.right))
  {
    var newx := s.initrx + dx;
    var aw := s.AnchorWidth();
    if SpansMinTrim(s, newx - s.leftAnchor.right)
       && newx + aw <= s.Width()
    then
      Step(s.(rightAnchor := s.rightAnchor.(left := newx, right := newx + aw),
              mainLine := s.mainLine.(right := newx)), true)
    else
      Step(s, false)
  }

  /** A move of the whole window by `dx` from the baselines. It is accepted
      only when the left anchor stays right of the origin and the right
      anchor inside the measured width; then both anchors shift by the same
      amount, so the distance between them is the distance between the
      baselines, and the main line spans the gap. A rejected move changes
      nothing. */
  function DragWhole(s: View, dx: real): (r: Step)
    ensures r.invalidated <==>
      s.initrx + dx + s.AnchorWidth() <= s.Width() && s.initlx + dx >= 0.0
    ensures !r.invalidated ==> r.view == s
    ensures r.invalidated ==>
      && r.view.leftAnchor.left == s.initlx + dx
      && r.view.rightAnchor.left == s.initrx + dx
      && r.view.rightAnchor.left - r.view.leftAnchor.left == s.initrx - s.initlx
      && 0.0 <= r.view.leftAnchor.left && r.view.rightAnchor.right <= s.Width()
      && r.view.leftAnchor.right == r.view.leftAnchor.left + s.AnchorWidth()
      && r.view.rightAnchor.right == r.view.rightAnchor.left + s.AnchorWidth()
      && r.view.mainLine.left == r.view.leftAnchor.right
      && r.view.mainLine.right == r.view.rightAnchor.left
      && r.view == s.(leftAnchor := s.leftAnchor.(left := r.view.leftAnchor.left,
                                                  right := r.view.leftAnchor.right),
                      rightAnchor := s.rightAnchor.(left := r.view.rightAnchor.left,
                                                    right := r.view.rightAnchor.right),
                      mainLine := s.mainLine.(left := r.view.mainLine.left,
                                              right := r.view.mainLine.right))
  {
    var aw := s.AnchorWidth();
    if s.initrx + dx + aw <= s.Width() && s.initlx + dx >= 0.0 then
      var l := s.initlx + dx;
      var rx := s.initrx + dx;
      Step(s.(leftAnchor := s.leftAnchor.(left := l, right := l + aw),
              rightAnchor := s.rightAnchor.(left := rx, right := rx + aw),
              mainLine := s.mainLine.(left := l + aw, right := rx)), true)
    else
      Step(s, false)
  }

  /** ACTION_MOVE: the offset from the touch-down position drives the drag
      of the captured mode. No move writes the logical values, the measured
      size, the capture mode or the baselines. */
  function TouchMove(s: View, x: real): (r: Step)
    ensures SameSettings(r.view, s) && SameGesture(r.view, s)
    ensures !r.invalidated ==> r.view == s
    ensures s.captured == Left ==> r == DragLeft(s, x - s.initx)
    ensures s.captured == Right ==> r == DragRight(s, x - s.initx)
    ensures s.captured == Whole ==> r == DragWhole(s, x - s.initx)
  {
    var dx := x - s.initx;
    match s.captured
    case Left => DragLeft(s, dx)
    case Right => DragRight(s, dx)
    case Whole => DragWhole(s, dx)
  }

  /** `onTouchEvent`: DOWN and MOVE are handled as above, every other action
      is ignored, and the event is always reported as consumed. */
  function OnTouchEvent(s: View, e: MotionEvent): (r: TouchResult)
    ensures r.consumed
    ensures e.action == ActionDown ==> r.view == TouchDown(s, e.x, e.y) && !r.invalidated
    ensures e.action == ActionMove ==> Step(r.view, r.invalidated) == TouchMove(s, e.x)
    ensures e.action != ActionDown && e.action != ActionMove ==> r.view == s && !r.invalidated
  {
    match e.action
    case ActionDown => TouchResult(TouchDown(s, e.x, e.y), false, true)
    case ActionMove =>
      var step := TouchMove(s, e.x);
      TouchResult(step.view, step.invalidated, true)
    case _ => TouchResult(s, false, true)
  }
}

=== FILE: trim_view_proofs.dfy ===
/** Properties that relate several operations of the trim view: the
    geometry invariants a gesture keeps, what a whole gesture can and cannot
    change, and the consequences of the two setters. */
module TrimViewProofs {
  import opened Numerics
  import opened Rects
  import opened TrimView

  /** The anchors hug the main line: each anchor is one anchor width wide,
      the main line starts at the left anchor's right edge and ends at the
      right anchor's left edge. */
  predicate Coherent(v: View) {
    && v.leftAnchor.right == v.leftAnchor.left + v.AnchorWidth()
    && v.mainLine.left == v.leftAnchor.right
    && v.rightAnchor.right == v.rightAnchor.left + v.AnchorWidth()
    && v.mainLine.right == v.rightAnchor.left
  }

  /** Both anchors lie within the measured width. */
  predicate InBounds(v: View) {
    v.leftAnchor.left >= 0.0 && v.rightAnchor.right <= v.Width()
  }

  /** The main line is at least `minTrim` long in logical units. */
  predicate WideEnough(v: View) {
    SpansMinTrim(v, v.mainLine.right - v.mainLine.left)
  }

  /** What every accepted drag re-establishes. */
  predicate Inv(v: View) {
    Coherent(v) && InBounds(v) && WideEnough(v)
  }

  /** While the whole window is captured, the baselines are as far apart as
      the anchors. */
  predicate WholeBaseline(v: View) {
    v.captured == Whole ==> v.initrx - v.initlx == v.rightAnchor.left - v.leftAnchor.left
  }

  predicate GestureInv(v: View) {
    Inv(v) && WholeBaseline(v)
  }

  /** The right anchor does not begin where the main line ends. */
  predicate Detached(v: View) {
    v.mainLine.right != v.rightAnchor.left
  }

  /** The view after a sequence of touch events, one `onTouchEvent` call
      each. No sequence of touches writes the logical values or the measured
      size: drags move pixels only. */
  function Run(s: View, es: seq<MotionEvent>): (r: View)
    ensures SameSettings(r, s)
    decreases |es|
  {
    if es == [] then s else Run(OnTouchEvent(s, es[0]).view, es[1..])
  }

  predicate AllMoves(es: seq<MotionEvent>) {
    forall i :: 0 <= i < |es| ==> es[i].action == ActionMove
  }

  // ---------------------------------------------------------------------
  // Layout

  /** A layout pass that sets the geometry leaves the anchors hugging the
      main line with the left anchor at the origin; when `trim` lies in
      `[0, max]` and the width fits one anchor, the right anchor lies
      within the width too. */
  lemma MeasureIsCoherent(s: View, width: Size)
    requires LaysOut(s, width) && s.max != 0
    ensures Coherent(Measure(s, width))
    ensures Measure(s, width).leftAnchor.left == 0.0
    ensures 0 <= s.trim <= s.max && width >= s.anchorPx ==> InBounds(Measure(s, width))
  {
    if 0 <= s.trim <= s.max && width >= s.anchorPx {
      ScaleWithin(s.trim as real, s.max as real, width as real - s.AnchorWidth());
    }
  }

  /** A fraction `t / m` of a length `k`, with `t` in `[0, m]`, is at most `k`. */
  lemma ScaleWithin(t: real, m: real, k: real)
    requires 0.0 <= t <= m && 0.0 < m && 0.0 <= k
    ensures t * k / m <= k
  {
    assert t * k <= m * k;
    assert (m * k) / m == k;
  }

  /** With a positive divisor the guard test is a plain product comparison. */
  lemma QuotientAtLeastPositive(n: real, d: real, m: real)
    requires 0.0 < d
    ensures QuotientAtLeast(n, d, m) <==> n >= m * d
  {
    assert n / d * d == n;
    if n >= m * d {
      assert n / d >= m;
    }
  }

  /** Scaling by `m` undoes dividing by it. */
  lemma ScaleBack(m: real, a: real)
    requires m != 0.0
    ensures m * (a / m) == a
  {
  }

  /** After a layout pass the main line is long enough for the drag guards
      exactly when `trim * (width - anchorWidth) - max * anchorWidth` is at
      least `minTrim` times the track: layout and guards use different
      scales. */
  lemma MeasureWideEnoughIff(s: View, width: Size)
    requires LaysOut(s, width) && s.max > 0
    requires width as real > 2.0 * s.AnchorWidth()
    ensures var aw := s.AnchorWidth(); var w := width as real;
      WideEnough(Measure(s, width)) <==>
        s.trim as real * (w - aw) - s.max as real * aw >= s.minTrim as real * (w - 2.0 * aw)
  {
    var r := Measure(s, width);
    var aw := s.AnchorWidth();
    var w := width as real;
    var mx := s.max as real;
    var q := s.trim as real * (w - aw) / mx;
    assert r.mainLine.right - r.mainLine.left == q - aw;
    ScaleBack(mx, s.trim as real * (w - aw));
    assert mx * (q - aw) == s.trim as real * (w - aw) - mx * aw;
    assert r.Track() == w - 2.0 * aw;
    QuotientAtLeastPositive(mx * (q - aw), w - 2.0 * aw, s.minTrim as real);
  }

  /** The defaults (`max` 100, `trim` 33, `minTrim` 0), laid out at a width
      of at least 133/33 anchor widths, meet the invariant. */
  lemma InitialLayoutMeetsInv(anchorPx: Size, lineHeightPx: Size, width: Size)
    requires anchorPx > 0 && 133 * anchorPx <= 33 * width
    ensures Inv(Measure(Initial(anchorPx, lineHeightPx), width))
  {
    var s := Initial(anchorPx, lineHeightPx);
    MeasureIsCoherent(s, width);
    MeasureWideEnoughIff(s, width);
  }

  /** Every view reached from a freshly laid-out default view by a
      touch-down and then any touch events keeps the gesture invariant. */
  lemma InitialGesturesKeepInv(anchorPx: Size, lineHeightPx: Size, width: Size,
                               x: real, y: real, es: seq<MotionEvent>)
    requires anchorPx > 0 && 133 * anchorPx <= 33 * width
    ensures GestureInv(Run(TouchDown(Measure(Initial(anchorPx, lineHeightPx), width), x, y), es))
  {
    InitialLayoutMeetsInv(anchorPx, lineHeightPx, width);
    DownEstablishesGestureInv(Measure(Initial(anchorPx, lineHeightPx), width), x, y);
    RunPreservesGestureInv(TouchDown(Measure(Initial(anchorPx, lineHeightPx), width), x, y), es);
  }

  /** The defaults with `minTrim` raised to `trim`, laid out at width 1000
      with 50-pixel anchors: the view is coherent and in bounds, but its main
      line is only about 29.3 logical units long. So a gesture on the right
      anchor, down at x 320, has a dead zone: every move short of x 353.5 is
      ignored, the move back to the down point included. (The left anchor,
      already at the origin and at the shortest window, accepts no move
      either; that part holds under the corrected layout too.) */
  lemma LayoutScaleMismatch(lineHeightPx: Size)
    ensures var v := Measure(Initial(50, lineHeightPx).(minTrim := 33), 1000);
            && Coherent(v) && InBounds(v) && !WideEnough(v)
            && TouchDown(v, 320.0, 10.0).captured == Right
            && (forall x: real :: TouchMove(TouchDown(v, 320.0, 10.0), x).invalidated <==> 353.5 <= x <= 956.5)
            && TouchDown(v, 10.0, 10.0).captured == Left
            && forall x: real :: !TouchMove(TouchDown(v, 10.0, 10.0), x).invalidated
  {
    var s := Initial(50, lineHeightPx).(minTrim := 33);
    var v := Measure(s, 1000);
    MeasureIsCoherent(s, 1000);
    MeasureWideEnoughIff(s, 1000);
    assert v.rightAnchor.left == 313.5;
    var d := TouchDown(v, 10.0, 10.0);
    assert Contains(v.leftAnchor, 10.0, 10.0) && !Contains(v.rightAnchor, 10.0, 10.0);
    forall x: real ensures !TouchMove(d, x).invalidated {
      var newx := d.initlx + (x - d.initx);
      if newx >= 0.0 {
        QuotientAtLeastPositive(100.0 * (d.rightAnchor.left - newx - 50.0), 900.0, 33.0);
      }
    }
    var dr := TouchDown(v, 320.0, 10.0);
    assert Contains(v.rightAnchor, 320.0, 10.0);
    forall x: real ensures TouchMove(dr, x).invalidated <==> 353.5 <= x <= 956.5 {
      QuotientAtLeastPositive(100.0 * (313.5 + (x - 320.0) - 50.0), 900.0, 33.0);
    }
  }

  /** The partner of the dead zone above: under the corrected layout the
      same view puts the right anchor at 347, and a gesture on it, down at
      x 350, accepts exactly the moves from the down point up to the right
      edge of the width. */
  lemma IntendedRightAnchorMoves(lineHeightPx: Size)
    ensures var v := MeasureIntended(Initial(50, lineHeightPx).(minTrim := 33), 1000);
            && Inv(v)
            && TouchDown(v, 350.0, 10.0).captured == Right
            && forall x: real :: TouchMove(TouchDown(v, 350.0, 10.0), x).invalidated <==> 350.0 <= x <= 953.0
  {
    var s := Initial(50, lineHeightPx).(minTrim := 33);
    var v := MeasureIntended(s, 1000);
    MeasureIntendedMatchesGuards(s, 1000);
    MeasureIntendedEdges(s, 1000);
    assert v.rightAnchor.left == 347.0;
    var dr := TouchDown(v, 350.0, 10.0);
    assert Contains(v.rightAnchor, 350.0, 10.0);
    forall x: real ensures TouchMove(dr, x).invalidated <==> 350.0 <= x <= 953.0 {
      QuotientAtLeastPositive(100.0 * (347.0 + (x - 350.0) - 50.0), 900.0, 33.0);
    }
  }

  /** Comparing a quotient by a positive divisor is comparing the dividend. */
  lemma DivAtMost(p: real, m: real, t: real)
    requires 0.0 < m
    ensures p / m <= t <==> p <= t * m
  {
    var q := p / m;
    assert q * m == p;
    if q <= t {
      assert (t - q) * m >= 0.0;
    } else {
      assert (q - t) * m > 0.0;
    }
  }

  /** Scaling by a positive factor keeps the order. */
  lemma MulAtMost(a: real, b: real, t: real)
    requires 0.0 < t
    ensures a * t <= b * t <==> a <= b
  {
    if a <= b {
      assert (b - a) * t >= 0.0;
    } else {
      assert (a - b) * t > 0.0;
    }
  }

  /** A fraction `trim / max` of a positive track, read back by the guards'
      scale `max * span / track`, is `trim` again. */
  lemma TrackFraction(trim: real, mx: real, t: real, minTrim: real)
    requires 0.0 < mx && 0.0 < t
    ensures QuotientAtLeast(mx * (trim * t / mx), t, minTrim) <==> trim >= minTrim
    ensures trim * t / mx <= t <==> trim <= mx
  {
    var p := trim * t;
    ScaleBack(mx, p);
    assert mx * (p / mx) == p;
    QuotientAtLeastPositive(p, t, minTrim);
    MulAtMost(minTrim, trim, t);
    assert minTrim * t <= p <==> minTrim <= trim;
    DivAtMost(trim * t, mx, t);
    assert t * mx == mx * t;
    MulAtMost(trim, mx, t);
  }

  /** Where the intended layout puts the edges the invariant reads. */
  lemma MeasureIntendedEdges(s: View, width: Size)
    requires LaysOut(s, width) && s.max > 0
    ensures var r := MeasureIntended(s, width);
      var aw := s.AnchorWidth();
      var q := s.trim as real * (width as real - 2.0 * aw) / s.max as real;
      && r.leftAnchor.left == 0.0 && r.leftAnchor.right == aw
      && r.mainLine.left == aw && r.mainLine.right == aw + q
      && r.rightAnchor.left == aw + q && r.rightAnchor.right == 2.0 * aw + q
      && r.anchorPx == s.anchorPx && r.measuredWidth == width
      && r.max == s.max && r.trim == s.trim && r.minTrim == s.minTrim
  {
    var m := Measure(s, width);
    assert m.mainLine.left == s.AnchorWidth();
    assert m.leftAnchor == Rect(0.0, 0.0, s.AnchorWidth(), s.AnchorWidth());
  }

  /** A view whose main line spans `trim / max` of the track, between
      hugging anchors and with the left anchor at the origin, meets the
      invariant exactly when `minTrim <= trim <= max`. */
  lemma TrackScaledEdges(r: View, q: real)
    requires r.max > 0 && r.Track() > 0.0
    requires q == r.trim as real * r.Track() / r.max as real
    requires r.leftAnchor.left == 0.0 && r.leftAnchor.right == r.AnchorWidth()
    requires r.mainLine.left == r.AnchorWidth() && r.mainLine.right == r.AnchorWidth() + q
    requires r.rightAnchor.left == r.mainLine.right && r.rightAnchor.right == r.mainLine.right + r.AnchorWidth()
    ensures Coherent(r)
    ensures WideEnough(r) <==> r.trim >= r.minTrim
    ensures InBounds(r) <==> r.trim <= r.max
  {
    TrackFraction(r.trim as real, r.max as real, r.Track(), r.minTrim as real);
    assert r.mainLine.right - r.mainLine.left == q;
    assert r.Width() == r.Track() + 2.0 * r.AnchorWidth();
  }

  /** The layout scaled as the guards read it: the main line spans exactly
      `trim` logical units, so the view is wide enough iff `trim >= minTrim`
      and in bounds iff `trim <= max`. */
  lemma MeasureIntendedMatchesGuards(s: View, width: Size)
    requires LaysOut(s, width) && s.max > 0
    requires width as real > 2.0 * s.AnchorWidth()
    ensures Coherent(MeasureIntended(s, width))
    ensures MeasureIntended(s, width).leftAnchor.left == 0.0
    ensures WideEnough(MeasureIntended(s, width)) <==> s.trim >= s.minTrim
    ensures InBounds(MeasureIntended(s, width)) <==> s.trim <= s.max
  {
    var r := MeasureIntended(s, width);
    MeasureIntendedEdges(s, width);
    TrackScaledEdges(r, s.trim as real * (width as real - 2.0 * s.AnchorWidth()) / s.max as real);
  }

  /** With the intended layout, every view reached by a touch-down and any
      touch events keeps the gesture invariant whenever
      `minTrim <= trim <= max`. */
  lemma IntendedGesturesKeepInv(s: View, width: Size, x: real, y: real, es: seq<MotionEvent>)
    requires LaysOut(s, width) && s.max > 0
    requires width as real > 2.0 * s.AnchorWidth()
    requires s.minTrim <= s.trim <= s.max
    ensures GestureInv(Run(TouchDown(MeasureIntended(s, width), x, y), es))
  {
    MeasureIntendedMatchesGuards(s, width);
    DownEstablishesGestureInv(MeasureIntended(s, width), x, y);
    RunPreservesGestureInv(TouchDown(MeasureIntended(s, width), x, y), es);
  }

  /** Laying out twice at the same width gives what laying out once does:
      the geometry is a function of the logical state and the width. */
  lemma MeasureIdempotent(s: View, width: Size)
    requires LaysOut(s, width) ==> s.max != 0
    ensures Measure(Measure(s, width), width) == Measure(s, width)
  {
  }

  // ---------------------------------------------------------------------
  // Setters

  /** Setting `trim` twice is setting it once to the second value. */
  lemma SetTrimLastWriteWins(s: View, a: Int32, b: Int32)
    requires s.max != 0
    ensures SetTrim(SetTrim(s, a), b) == SetTrim(s, b)
  {
    assert TrimRight(SetTrim(s, a), b) == TrimRight(s, b);
  }

  /** The `trim` setter detaches the right anchor from the main line: its
      left edge lands one anchor width past the main line's end. */
  lemma SetTrimDetachesRightAnchor(s: View, value: Int32)
    requires s.max != 0 && s.anchorPx > 0
    ensures SetTrim(s, value).rightAnchor.left == SetTrim(s, value).mainLine.right + s.AnchorWidth()
    ensures Detached(SetTrim(s, value))
    ensures !Coherent(SetTrim(s, value))
  {
  }

  /** Of all touch events on a view whose right anchor is detached, exactly
      the accepted moves of the right anchor or of the whole window
      re-attach it; a touch-down, a left move, a rejected move or any other
      action leaves it detached. */
  lemma TouchReattachesRightAnchor(s: View, e: MotionEvent)
    requires Detached(s)
    ensures !Detached(OnTouchEvent(s, e).view) <==>
      e.action == ActionMove && OnTouchEvent(s, e).invalidated && s.captured != Left
  {
  }

  /** The `progress` setter moves neither the main line nor the right
      anchor, so it leaves a detached right anchor detached. */
  lemma SetProgressKeepsDetached(s: View, value: Int32)
    requires Detached(s) && value <= s.max
    ensures Detached(SetProgress(s, value).value)
  {
  }

  /** Because the `trim` setter leaves the right anchor's right edge where
      it was, growing `trim` far enough leaves an empty right anchor that no
      touch can capture. */
  lemma SetTrimCanHideRightAnchor(s: View, value: Int32)
    requires s.max != 0
    requires value as real * s.Width() / s.max as real + s.AnchorWidth() >= s.rightAnchor.right
    ensures forall x: real, y: real :: TouchDown(SetTrim(s, value), x, y).captured != Right
  {
    var t := SetTrim(s, value);
    var mainRight := value as real * s.Width() / s.max as real;
    assert t.rightAnchor.right == s.rightAnchor.right;
    assert t.mainLine.right == mainRight;
    assert t.rightAnchor.left == mainRight + s.AnchorWidth();
    assert !(t.rightAnchor.left < t.rightAnchor.right);
    forall x: real, y: real ensures TouchDown(t, x, y).captured != Right {
      assert !Contains(t.rightAnchor, x, y);
    }
  }

  /** Setting the same progress twice is setting it once. */
  lemma SetProgressIdempotent(s: View, value: Int32)
    requires value <= s.max
    ensures SetProgress(SetProgress(s, value).value, value) == SetProgress(s, value)
  {
  }

  /** The `progress` setter moves only the progress line, so it keeps the
      gesture invariant. */
  lemma SetProgressPreservesGestureInv(s: View, value: Int32)
    requires GestureInv(s) && value <= s.max
    ensures GestureInv(SetProgress(s, value).value)
  {
  }

  /** A left drag touches neither the right anchor nor the main line's right
      end, so a right anchor the `trim` setter detached stays detached. */
  lemma LeftDragKeepsRightAnchorDetached(s: View, x: real)
    requires s.captured == Left && Detached(s)
    ensures Detached(TouchMove(s, x).view)
  {
  }

  /** `trim * progress` is an `Int` product: with `trim` and `progress` both
      50000 it wraps to a negative number and the progress line ends left of
      where it starts. */
  lemma ProgressProductWraps(s: View)
    requires s.trim == 50000 && s.max >= 50000
    ensures SetProgress(s, 50000).Ok?
    ensures SetProgress(s, 50000).value.progressLine.right < s.AnchorWidth()
  {
    assert Times(50000, 50000) == -1794967296;
  }

  // ---------------------------------------------------------------------
  // Touch

  /** The guard test depends only on the settings. */
  lemma SpansMinTrimSettings(a: View, b: View, span: real)
    requires SameSettings(a, b)
    ensures SpansMinTrim(a, span) == SpansMinTrim(b, span)
  {
  }

  lemma DragLeftPreservesGestureInv(s: View, dx: real)
    requires GestureInv(s) && s.captured == Left
    ensures GestureInv(DragLeft(s, dx).view)
  {
    var r := DragLeft(s, dx);
    if r.invalidated {
      var span := s.rightAnchor.left - (s.initlx + dx) - s.AnchorWidth();
      assert r.view.mainLine.right - r.view.mainLine.left == span;
      SpansMinTrimSettings(r.view, s, span);
    }
  }

  lemma DragRightPreservesGestureInv(s: View, dx: real)
    requires GestureInv(s) && s.captured == Right
    ensures GestureInv(DragRight(s, dx).view)
  {
    var r := DragRight(s, dx);
    if r.invalidated {
      var span := (s.initrx + dx) - s.leftAnchor.right;
      assert r.view.mainLine.right - r.view.mainLine.left == span;
      SpansMinTrimSettings(r.view, s, span);
    }
  }

  /** A whole-window drag keeps the main line's length, so it stays wide
      enough. */
  lemma DragWholePreservesGestureInv(s: View, dx: real)
    requires GestureInv(s) && s.captured == Whole
    ensures GestureInv(DragWhole(s, dx).view)
  {
    var r := DragWhole(s, dx);
    if r.invalidated {
      var span := s.mainLine.right - s.mainLine.left;
      assert r.view.mainLine.right - r.view.mainLine.left == span;
      SpansMinTrimSettings(r.view, s, span);
    }
  }

  /** One touch event keeps the gesture invariant. */
  lemma TouchPreservesGestureInv(s: View, e: MotionEvent)
    requires GestureInv(s)
    ensures GestureInv(OnTouchEvent(s, e).view)
  {
    if e.action == ActionMove {
      var dx := e.x - s.initx;
      match s.captured
      case Left => DragLeftPreservesGestureInv(s, dx);
      case Right => DragRightPreservesGestureInv(s, dx);
      case Whole => DragWholePreservesGestureInv(s, dx);
    }
  }

  /** A touch-down on a view whose drags are all consistent starts a
      gesture that keeps them consistent. */
  lemma DownEstablishesGestureInv(s: View, x: real, y: real)
    requires Inv(s)
    ensures GestureInv(TouchDown(s, x, y))
  {
  }

  /** Invariant closure: any sequence of touch events keeps the gesture
      invariant, so the anchors stay in bounds, hugging a main line at least
      `minTrim` long. */
  lemma {:induction false} RunPreservesGestureInv(s: View, es: seq<MotionEvent>)
    requires GestureInv(s)
    ensures GestureInv(Run(s, es))
    decreases |es|
  {
    if es != [] {
      TouchPreservesGestureInv(s, es[0]);
      RunPreservesGestureInv(OnTouchEvent(s, es[0]).view, es[1..]);
    }
  }

  /** A move that arrives before any touch-down runs in the initial whole
      mode from zero baselines: if accepted, both anchors start at the
      pointer, so the main line ends before it starts. */
  lemma MoveBeforeAnyDown(anchorPx: Size, lineHeightPx: Size, width: Size, x: real)
    requires anchorPx > 0
    ensures var v := Measure(Initial(anchorPx, lineHeightPx), width);
            var r := TouchMove(v, x);
            && (r.invalidated <==> 0.0 <= x && x + anchorPx as real <= width as real)
            && (r.invalidated ==>
                  r.view.leftAnchor.left == r.view.rightAnchor.left == x
                  && r.view.mainLine.right < r.view.mainLine.left)
  {
  }

  /** What stays put while a gesture that began in `d` is dragged: all but
      the horizontal edges of the main line and the anchors, and in a
      one-anchor mode the other anchor and its end of the main line. */
  predicate GestureFrame(d: View, t: View) {
    && SameSettings(t, d) && SameGesture(t, d)
    && t.bgLine == d.bgLine && t.progressLine == d.progressLine
    && SameBand(t.mainLine, d.mainLine)
    && SameBand(t.leftAnchor, d.leftAnchor) && SameBand(t.rightAnchor, d.rightAnchor)
    && (d.captured == Left ==> t.rightAnchor == d.rightAnchor && t.mainLine.right == d.mainLine.right)
    && (d.captured == Right ==> t.leftAnchor == d.leftAnchor && t.mainLine.left == d.mainLine.left)
  }

  lemma MoveKeepsGestureFrame(d: View, t: View, x: real)
    requires GestureFrame(d, t)
    ensures GestureFrame(d, TouchMove(t, x).view)
  {
  }

  lemma {:induction false} MovesKeepGestureFrame(d: View, t: View, es: seq<MotionEvent>)
    requires GestureFrame(d, t) && AllMoves(es)
    ensures GestureFrame(d, Run(t, es))
    decreases |es|
  {
    if es != [] {
      assert es[0].action == ActionMove;
      MoveKeepsGestureFrame(d, t, es[0].x);
      MovesKeepGestureFrame(d, OnTouchEvent(t, es[0]).view, es[1..]);
    }
  }

  /** The move back to the down point, from a view `t` dragged in a
      gesture that began in `d := TouchDown(s, ...)`, per capture mode. */
  lemma ReturnLeft(s: View, d: View, t: View)
    requires Inv(s) && SameSettings(d, s) && SameGeometry(d, s)
    requires d.captured == Left && d.initlx == s.leftAnchor.left && GestureFrame(d, t)
    ensures DragLeft(t, 0.0).invalidated && SameGeometry(DragLeft(t, 0.0).view, s)
  {
    var span := t.rightAnchor.left - (t.initlx + 0.0) - t.AnchorWidth();
    assert span == s.mainLine.right - s.mainLine.left;
    SpansMinTrimSettings(t, s, span);
  }

  lemma ReturnRight(s: View, d: View, t: View)
    requires Inv(s) && SameSettings(d, s) && SameGeometry(d, s)
    requires d.captured == Right && d.initrx == s.rightAnchor.left && GestureFrame(d, t)
    ensures DragRight(t, 0.0).invalidated && SameGeometry(DragRight(t, 0.0).view, s)
  {
    var span := (t.initrx + 0.0) - t.leftAnchor.right;
    assert span == s.mainLine.right - s.mainLine.left;
    SpansMinTrimSettings(t, s, span);
  }

  lemma ReturnWhole(s: View, d: View, t: View)
    requires Inv(s) && SameSettings(d, s) && SameGeometry(d, s)
    requires d.captured == Whole && d.initrx == s.rightAnchor.left && d.initlx == s.leftAnchor.left
    requires GestureFrame(d, t)
    ensures DragWhole(t, 0.0).invalidated && SameGeometry(DragWhole(t, 0.0).view, s)
  {
  }

  /** Ignoring a move whose guard fails loses nothing: from a view meeting
      the invariant, however a gesture is dragged, returning the pointer to
      where it went down is an accepted move that restores exactly the
      geometry the gesture started from. */
  lemma ReturnToDownPointRestores(s: View, x: real, y: real, drags: seq<MotionEvent>, y': real)
    requires Inv(s) && AllMoves(drags)
    ensures var back := OnTouchEvent(Run(TouchDown(s, x, y), drags), MotionEvent(ActionMove, x, y'));
            back.invalidated && SameGeometry(back.view, s)
  {
    var d := TouchDown(s, x, y);
    assert GestureFrame(d, d);
    MovesKeepGestureFrame(d, d, drags);
    var t := Run(d, drags);
    assert x - t.initx == 0.0;
    match d.captured
    case Left => ReturnLeft(s, d, t);
    case Right => ReturnRight(s, d, t);
    case Whole => ReturnWhole(s, d, t);
  }
}
